=== FILE: README.md ===
# OrthancArchiver retention run, modelled in Dafny

OrthancArchiver moves aged series off an Orthanc PACS server. This overview and
most of the model describe the program with the two calls listed under
"## Findings" corrected: the cleanup list is appended to at line 226, and an
HTTP DELETE is sent at line 241. As written, the first due series always raises,
at line 193 (its study is unknown to the server), 226 or 241, which ends the run
(`Findings.AsWrittenLoop`); the `Findings` module models that behaviour.

In the corrected program, one run reads the
clock once and makes the day folder `<ArchivePath>/<YYYYMMDD>` if it is missing.
It then walks the server's series list in order. A series is kept while the time
since its `LastUpdate` is at most `PersistenceTimespan` days. A series older than
that is archived:

1. every instance is downloaded to `<instance id>.dcm` and added to `<series id>.tar`, in list order;
2. the tarball is moved into the day folder;
3. an `ArchivedSeries` row (series, study, patient, date string, archive location) is added to the database session;
4. a delete request for the series is sent to the server;
5. the downloaded files are removed, in download order.

The session is committed once, after the whole loop. An exception ends the run
before the commit. This happens when the server cannot report a due series'
study, or when a series lists an instance twice: the second `os.remove` of that
file then raises.

The model is split into these modules:

- `ORMapping` (ormapping.dfy): the `ArchivedSeries` row as a datatype. The committed `archived_series` table is a map keyed by series id. `CommitRows` is the commit of a session; the primary key makes it all-or-nothing.
- `Retention` (retention.dfy): the eligibility rule. Times are exact integers: the clock in microseconds, `LastUpdate` in seconds, a day as 86400 s.
- `Paths` (paths.dfy): the POSIX `os.path.join` rule, the tarball name, the per-instance file name, and the name `tarfile` stores a file under (its path without leading '/').
- `Pipeline` (pipeline.dfy): the server snapshot (`SeriesInfo`, the study → patient map in `Env`), the effect log (`Effect`), and one pass of the loop (`Advance`). It also holds the loop itself (`Process`), the whole run (`Run`), and reference definitions (`DueSeries`, `ArchiveAll`, `RecordsOf`, `IdsOf`).
- `SeriesProperties`, `RunProperties` (series_properties.dfy, run_properties.dfy): what one series and a whole run do.
- `Archiver` (archiver.dfy): the procedure as the step-by-step program it is. It is a class holding the effect log, the session's added rows, the requested deletions, the committed table and the folders on disk. A while-loop runs over the series and a nested while-loop runs over the instances. Each method is proved equal to the `Pipeline` function it implements.
- `Findings` (findings.dfy): the two calls in the main procedure that cannot succeed as written (see Findings).

A few inputs are given to the model instead of computed:

- The server is a fixed snapshot: the ordered series list, each series' id, `LastUpdate`, parent study and ordered instance ids, and the study → patient map.
- The clock reading, the timespan, the archive root and the date string are values in `Env`.
- The directories already on disk and the already-committed table are inputs to `Run`.

The code sends each delete request before the single commit, names the tarball `<series id>.tar` although it is gzip-compressed, and never retries. Its records carry no status. `RunProperties.CommitComesLast` and `RunProperties.DeletesOutliveFailedCommit` state the consequences: a series can be deleted on the server while its row is never committed.

## Model

| member | source | states |
|---|---|---|
| ORMapping.ConstructorStoresArguments | ORMapping/ArchivedSeries.py:17-23 | the constructor keeps each of its five arguments unchanged in the matching column, takes any strings (no validation), and every row is the construction of its own five fields |
| ORMapping.CommitRows | DicomArchiver.py:253 | the commit of a session; characterised by `CommitSucceedsIff` and `CommitContents` |
| ORMapping.CommitSucceedsIff | ORMapping/ArchivedSeries.py:9 | committing the session's rows succeeds exactly when their series ids are pairwise distinct and none is already in the table (series id is the primary key) |
| ORMapping.CommitContents | DicomArchiver.py:253 | a successful commit keeps every old row, holds each added row under its own series id and nothing else, and keeps the table keyed by series id (at most one row per series) |
| Retention.Eligible | DicomArchiver.py:178-184 | the retention test; characterised by `BoundaryIsKept` and `EligibleMonotone` |
| Retention.BoundaryIsKept | DicomArchiver.py:181-184 | a series exactly `PersistenceTimespan` days old is kept (strict comparison); one microsecond older, it is archived |
| Retention.EligibleMonotone | DicomArchiver.py:144-145 | a series that is due stays due with a later clock reading or an older last update |
| Paths.Join | DicomArchiver.py:149 | POSIX `os.path.join`; characterised by `JoinParts` and `JoinInjective` |
| Paths.JoinParts | DicomArchiver.py:149 | a joined path ends with its last component and, when that component is relative, starts with the directory |
| Paths.JoinInjective | DicomArchiver.py:229 | joining one directory with two different relative names gives two different paths |
| Paths.TarNameInjective | DicomArchiver.py:201 | different series ids give different tarball names |
| Paths.DistinctArchiveLocations | DicomArchiver.py:229-232 | two different series (ids not starting with '/') are archived at different paths of the same day folder, so one never overwrites the other |
| Paths.ArcName | DicomArchiver.py:223 | the name a file is stored under in the tarball never starts with '/' and is no longer than the file's path |
| Paths.ArcNameValue | DicomArchiver.py:223 | the name a file is stored under in the tarball is its path with exactly the leading '/' characters dropped: a suffix of the path, preceded only by '/' |
| Paths.InstanceFileNameInjective | DicomArchiver.py:216 | different instance ids are downloaded to different files |
| Paths.FileNameRoundTrip | DicomArchiver.py:216-223 | the instance id can be read back from `<instance id>.dcm`, and for an id not starting with '/' that is also its tar entry name |
| Pipeline.CleanPrefix | DicomArchiver.py:246-247 | how many files the cleanup loop removes before a removal raises; characterised by `SeriesProperties.CleanPrefixSpec` |
| Pipeline.Advance | DicomArchiver.py:167-247 | one pass of the series loop; characterised by `RunProperties.IneligibleIsSkipped`, `SeriesProperties.SeriesEffectOrder` and `RunProperties.HaltedIff` |
| Pipeline.Process | DicomArchiver.py:165-247 | the series loop; characterised by `RunProperties.ProcessMatchesReference` and `RunProperties.HaltIsFinal` |
| Pipeline.Run | DicomArchiver.py:143-254 | a whole run; characterised by `RunProperties.CompletedRunArchivesDue`, `CommitComesLast` and `CommitSucceedsOnlyForNewSeries` |
| SeriesProperties.CleanPrefixSpec | DicomArchiver.py:246-247 | the cleanup loop removes the longest prefix of the list in which no file repeats; the file after it repeats one already removed; the whole list is removed exactly when no file is listed twice |
| SeriesProperties.TempFilesDistinct | DicomArchiver.py:216-226 | the cleanup list repeats a file exactly when the series lists an instance twice |
| SeriesProperties.CleanupFailsIff | DicomArchiver.py:226-247 | the cleanup of a due series raises exactly when the series lists an instance twice |
| SeriesProperties.PackEntries | DicomArchiver.py:207-223 | packing adds exactly one tar entry per instance, named after the instance's file, in list order |
| SeriesProperties.PackPositions | DicomArchiver.py:207-223 | packing downloads instance k and then adds its file, before going to instance k + 1 |
| SeriesProperties.PackStages | DicomArchiver.py:207-223 | packing performs two effects per instance, each a download or a tar entry |
| SeriesProperties.CleanupShape | DicomArchiver.py:246-247 | cleanup removes each listed file exactly once, in list order |
| SeriesProperties.ArchiveEntries | DicomArchiver.py:204-226 | the tarball of an archived series gets exactly the entries of its instances' files, in download order; the move, row, delete and cleanup add no entry |
| SeriesProperties.TarHoldsEachInstanceOnce | DicomArchiver.py:186-223 | an archived series' tarball has one entry per instance in the series' `Instances` list, in that order, named after the instance's file without leading '/'; for an id not starting with '/' the entry is `<instance id>.dcm` and reading it back gives the instance id |
| SeriesProperties.EveryTempFileRemoved | DicomArchiver.py:226-247 | when a series lists each instance once, every file downloaded for it is removed later, after that series' delete request |
| SeriesProperties.SeriesEffectOrder | DicomArchiver.py:204-247 | a series' effects go pack, then move, then add the row, then request the delete, then remove files (up to the first removal that raises), and never back to an earlier stage; the move, the row and the delete request occur once each |
| RunProperties.IneligibleIsSkipped | DicomArchiver.py:184-247 | a series the rule keeps causes no download, tar entry, move, row, delete request or cleanup: the loop state is unchanged |
| RunProperties.DueSeriesMembers | DicomArchiver.py:165-184 | the reference list of due series holds exactly the listed series that are due |
| RunProperties.HaltedIff | DicomArchiver.py:186-247 | the loop ends early exactly when a due series names a study the server cannot report (line 193) or lists an instance twice (line 247) |
| RunProperties.RepeatedInstanceAborts | DicomArchiver.py:246-253 | a due series that lists an instance twice makes the run abort: no commit, and the table is unchanged |
| RunProperties.HaltIsFinal | DicomArchiver.py:165-195 | after an exception in the loop, the remaining series change nothing |
| RunProperties.ProcessMatchesReference | DicomArchiver.py:165-247 | a loop that ran to the end performed exactly the effects of each due series in server order, added one row per due series in that order, and asked for the deletion of exactly the due series |
| RunProperties.SeriesTouchesOnlyItself | DicomArchiver.py:201-241 | archiving one series moves, records and deletes nothing under another series id |
| RunProperties.OnlyDueTouched | DicomArchiver.py:184-241 | an id that no due series carries is never moved, given a row or deleted |
| RunProperties.KeptSeriesUntouched | DicomArchiver.py:181-247 | when series ids are distinct, a kept series gets no move, no row and no delete request |
| RunProperties.RowsShareRunDate | DicomArchiver.py:145-149 | every row of a run carries the run's one date string and the location `join(join(archive root, date), series id + ".tar")`, and the patient of its study |
| RunProperties.LoopNeitherCommitsNorCreatesFolders | DicomArchiver.py:165-247 | nothing inside the loop commits the session or creates a folder |
| RunProperties.CommitComesLast | DicomArchiver.py:241-253 | when the loop completes, the single commit is the last effect, so every delete request comes before any row is durable; an aborted run never commits and leaves the table unchanged |
| RunProperties.DayFolderPreparedOnce | DicomArchiver.py:148-151 | the day folder exists after a run; it is created only when missing, only as the first effect; a second run on the same day creates nothing |
| RunProperties.CompletedRunArchivesDue | DicomArchiver.py:165-253 | after a completed run the table keeps its old rows and holds, for every due series, the row (id, study, patient, date, location); it has no other new rows; deletion was requested for exactly the due series |
| RunProperties.CommitSucceedsOnlyForNewSeries | DicomArchiver.py:235-253 | a run completes exactly when the loop did not stop early and the due series have distinct ids that are not yet in the table |
| RunProperties.DeletesOutliveFailedCommit | DicomArchiver.py:237-253 | when the primary key rejects the commit, the table keeps its old rows while deletion of every due series has already been requested |
| RunProperties.ExistingRowsKept | DicomArchiver.py:253 | a run never overwrites a row already in the table |
| Archiver.ArchiveRun.constructor | DicomArchiver.py:136-139 | a new session starts with no added rows, no deletions and an empty effect log, over the given table and folders |
| Archiver.ArchiveRun.PrepareDayFolder | DicomArchiver.py:148-151 | returns `join(archive root, date)`; it is added to the folders, and a creation is logged only when it was missing |
| Archiver.ArchiveRun.PackSeries | DicomArchiver.py:204-226 | the nested loop appends the download and tar-entry effects of every instance in order, and returns the cleanup list `<instance id>.dcm` for each instance |
| Archiver.ArchiveRun.RemoveTempFiles | DicomArchiver.py:246-247 | the cleanup loop logs one removal per listed file, in order, until a file comes up that it removed already; it reports failure exactly then |
| Archiver.ArchiveRun.ProcessSeries | DicomArchiver.py:167-247 | one pass of the series loop, with the day folder computed once before the loop, changes the state exactly as `Pipeline.Advance` |
| Archiver.ArchiveRun.CommitSession | DicomArchiver.py:253 | logs the commit and sets the table to the committed one, or leaves it when the primary key rejects the rows |
| Archiver.ArchiveRun.ProcessAll | DicomArchiver.py:165-247 | the series loop leaves the state `Pipeline.Process` describes, after the effects already logged |
| Archiver.ArchiveRun.Execute | DicomArchiver.py:143-254 | a whole run produces exactly the log, table, deletions, folders and status of `Pipeline.Run` |
| Findings.AsWrittenAdvance | DicomArchiver.py:184-241 | one pass of the loop as written; characterised by `AsWrittenLoop` |
| Findings.AsWrittenLoop | DicomArchiver.py:165-241 | as written, the loop sends no delete request, removes no file and does not commit, and it raises exactly when some series is due |
| Findings.AsWrittenRun | DicomArchiver.py:143-254 | the whole run as written; characterised by `AsWrittenNeverDeletes` |
| Findings.AsWrittenNeverDeletes | DicomArchiver.py:241-253 | as written, no run sends a delete request or removes a file, and a run reaches the commit at line 253 exactly when no series is due |
| Findings.ScenarioS1Entries | DicomArchiver.py:207-223 | as intended, series S1's tarball holds `I1.dcm`, `I2.dcm`, `I3.dcm` in that order |
| Findings.ScenarioS1 | DicomArchiver.py:168-226 | series S1, 200 days old against a 180-day window, three instances: as written the run stops after packing the first instance; the corrected model archives three entries, commits S1's row and requests its deletion |
| Findings.ScenarioEmptySeries | DicomArchiver.py:241 | a due series without instances: as written the run stops before the delete request; the corrected model requests the deletion and commits |

## Left out

- Argument parsing and reading the JSON configuration (DicomArchiver.py:68-103) are I/O. The configuration values are fields of `Env`.
- Engine and backend selection (DicomArchiver.py:112-139) is left out: the SQLite engine, the empty MySQL branch, and the `Exception` that is built but never raised. The session is the list of added rows plus the committed table. Closing the session (line 254) is not modelled.
- The HTTP calls and JSON parsing (DicomArchiver.py:155-159, 172-174, 193-195, 213) are network I/O. They are replaced by the server snapshot. Only one server failure is modelled: a study the server cannot report, which makes the request raise and end the run. Failures to list series, to read a series or to download an instance are not modelled.
- Parsing `LastUpdate` and formatting the date (DicomArchiver.py:53, 148, 178) are library date handling. Times are integers and the date string is an input. The model does not tie the date string to the clock reading. It treats both as local wall-clock time, with no daylight-saving shifts.
- Gzip compression, file contents, writing the downloaded file, `shutil.move` and `os.remove` (DicomArchiver.py:204-232, 246-247) are file I/O. Only file names, tar entry names and their order are kept. The only file-system failure modelled is the removal of a file already removed, for a series that lists an instance twice. `os.mkdir` failing when the archive root is missing is not modelled, nor is any other failure to write, move or remove a file. A day-folder path that exists as a plain file counts as an existing folder.
- Ids containing '/' are not modelled as paths: two file names are taken to be the same file exactly when they are equal strings, and a download into a missing sub-directory does not fail. Orthanc's ids are hexadecimal groups joined by '-', so they contain no '/'. The leading-'/' rule of `tarfile` is modelled (`Paths.ArcName`).
- ORMapping/ArchivedInstances.py is not part of this model: it is declared unused and never instantiated.
- Deleting a series on the server has no effect inside the run; the snapshot is fixed. A later run is modelled only through the table and folders it receives.
- A commit that the primary key rejects stands for SQLAlchemy's failure at flush. That covers a series id already in the table or repeated within the session. The exception it raises is the status `CommitFailed`.
- The retention window is taken to be within the range of Python's `timedelta`, at most 999999999 days either way. Outside it, building the window at DicomArchiver.py:144 raises `OverflowError` before the day folder is made or any series is read, while the model runs normally.
- Archiver.ArchiveRun.Execute: requires a fresh session, as every run of the program starts one.

## Findings

| source | as written | input that shows it | evidently intended | confidence | as-written member | corrected member |
|---|---|---|---|---|---|---|
| DicomArchiver.py:226 | `add` is called on the cleanup list built at line 168. A Python list has no `add`, so the first downloaded instance of a due series raises `AttributeError`: nothing is moved, recorded, deleted or committed | series S1, last updated 200 days before the run, window 180 days, instances I1, I2, I3: the run ends after packing I1 | append each file name to the list and remove all of them after the delete request | high; not executed | Findings.ScenarioS1 | SeriesProperties.EveryTempFileRemoved |
| DicomArchiver.py:241 | `urllib2.urlopen` is given a `method` keyword that it does not accept. The call raises `TypeError` before any request is sent, so no series is ever deleted, and only a run in which no series is due reaches the commit at line 253 | a due series whose `Instances` list is empty (with instances, line 226 fails first) | send an HTTP DELETE for the series and continue with the next one | high; not executed | Findings.AsWrittenNeverDeletes | RunProperties.CompletedRunArchivesDue |

=== FILE: archiver.dfy ===
/**
 * The archiver's main procedure as the step-by-step program it is: a run
 * object holding the effect log, the database session's added rows, the
 * deletions requested so far, the committed table and the folders on disk,
 * driven by a loop over the series list and, per series, a loop over its
 * instances. Every method is proved against the functions of `Pipeline`.
 */
module Archiver {
  import opened ORMapping
  import opened Paths
  import opened Pipeline
  import opened SeriesProperties
  import opened RunProperties

  class ArchiveRun {
    var trace: seq<Effect>
    var pending: seq<ArchivedSeries>      // rows added to the session, not yet committed
    var deleted: set<string>
    var halted: bool
    var table: Table                      // committed rows
    var dirs: set<string>                 // directories present on disk
    var status: Status                    // the outcome, set by `Execute`

    /** The loop state, as the value `Pipeline.Process` describes. */
    function Current(): Progress
      reads this
    {
      Progress(trace, pending, deleted, halted)
    }

    /** A fresh session over the committed table `table0`, with directories `dirs0` on disk. */
    constructor (table0: Table, dirs0: set<string>)
      ensures Current() == Start && table == table0 && dirs == dirs0
    {
      trace, pending, deleted, halted := [], [], {}, false;
      table, dirs := table0, dirs0;
    }

    /** Creates `<archive root>/<YYYYMMDD>` unless it exists. */
    method PrepareDayFolder(env: Env) returns (folder: string)
      modifies this`trace, this`dirs
      ensures folder == DayFolder(env)
      ensures dirs == old(dirs) + {folder}
      ensures trace == old(trace) + FolderEffects(old(dirs), folder)
    {
      folder := Join(env.archivePath, env.dateStr);
      if folder !in dirs {
        trace := trace + [MakeDir(folder)];
        dirs := dirs + {folder};
      }
    }

    /**
     * Downloads every instance into its temporary file and adds that file to
     * the tarball, in list order; returns the files to clean up afterwards.
     */
    method PackSeries(instances: seq<string>) returns (cleanup: seq<string>)
      modifies this`trace
      ensures trace == old(trace) + PackEffects(instances)
      ensures cleanup == TempFiles(instances)
    {
      cleanup := [];
      var k := 0;
      while k < |instances|
        invariant 0 <= k <= |instances|
        invariant trace == old(trace) + PackEffects(instances[..k])
        invariant cleanup == TempFiles(instances[..k])
      {
        var instanceId := instances[k];
        trace := trace + [FetchInstance(instanceId)];
        var fileName := InstanceFileName(instanceId);
        trace := trace + [AddTarEntry(ArcName(fileName))];
        cleanup := cleanup + [fileName];
        assert instances[..k + 1][..k] == instances[..k];
        k := k + 1;
      }
      assert instances[..k] == instances;
    }

    /**
     * Removes the temporary files, in order; removing a file that is already
     * gone raises, which ends the removals and reports `failed`.
     */
    method RemoveTempFiles(files: seq<string>) returns (failed: bool)
      modifies this`trace
      ensures trace == old(trace) + CleanupEffects(files[..CleanPrefix(files)])
      ensures failed <==> CleanPrefix(files) < |files|
    {
      var k := 0;
      while k < |files|
        invariant 0 <= k <= |files|
        invariant CleanPrefix(files[..k]) == k
        invariant trace == old(trace) + CleanupEffects(files[..k])
      {
        CleanPrefixStep(files, k);
        if files[k] in files[..k] {
          // removed at an earlier step, so the file is gone and the removal raises
          return true;
        }
        trace := trace + [RemoveTempFile(files[k])];
        assert files[..k + 1][..k] == files[..k];
        k := k + 1;
      }
      assert files[..k] == files;
      return false;
    }

    /** The body of the loop over the series list; `folder` is the day folder. */
    method ProcessSeries(env: Env, folder: string, s: SeriesInfo)
      requires !halted && folder == DayFolder(env)
      modifies this`trace, this`pending, this`deleted, this`halted
      ensures Current() == Advance(env, old(Current()), s)
    {
      if !IsDue(env, s) {
        return;
      }
      if s.parentStudy !in env.studyPatient {
        halted := true;
        return;
      }
      var patientId := env.studyPatient[s.parentStudy];
      var tarName := TarName(s.id);
      var cleanup := PackSeries(s.instances);
      ghost var packed := trace;
      var location := Join(folder, tarName);
      trace := trace + [MoveTar(tarName, location)];
      var row := ArchivedSeries(s.id, s.parentStudy, patientId, env.dateStr, location);
      assert row == RecordFor(env, s);
      pending := pending + [row];
      trace := trace + [AddRecord(row)];
      trace := trace + [DeleteRequest(s.id)];
      deleted := deleted + {s.id};
      assert trace == packed + [MoveTar(tarName, location), AddRecord(row), DeleteRequest(s.id)];
      halted := RemoveTempFiles(cleanup);
    }

    /** Commits the session: the rows are inserted, or the primary key rejects them all. */
    method CommitSession()
      modifies this`trace, this`table, this`status
      ensures trace == old(trace) + [Commit]
      ensures match CommitRows(old(table), pending)
        case Committed(t) => table == t && status == Completed
        case IntegrityError => table == old(table) && status == CommitFailed
    {
      trace := trace + [Commit];
      match CommitRows(table, pending)
      case Committed(t) =>
        table := t;
        status := Completed;
      case IntegrityError =>
        status := CommitFailed;
    }

    /**
     * The loop over the series list, in server order; it stops at the first
     * exception. Effects are appended to the log kept so far.
     */
    method ProcessAll(env: Env, folder: string, series: seq<SeriesInfo>)
      requires pending == [] && deleted == {} && !halted && folder == DayFolder(env)
      modifies this`trace, this`pending, this`deleted, this`halted
      ensures Current() == Shift(old(trace), Process(env, series))
    {
      ghost var pre := trace;
      var i := 0;
      while i < |series| && !halted
        invariant 0 <= i <= |series|
        invariant Current() == Shift(pre, Process(env, series[..i]))
      {
        ghost var before := Process(env, series[..i]);
        ProcessSeries(env, folder, series[i]);
        AdvanceShift(env, pre, before, series[i]);
        assert series[..i + 1][..i] == series[..i];
        i := i + 1;
      }
      if halted {
        HaltIsFinal(env, series, i);
      } else {
        assert series[..i] == series;
      }
    }

    /** One run over the server's series list, from a fresh session. */
    method Execute(env: Env, series: seq<SeriesInfo>)
      requires Current() == Start
      modifies this
      ensures RunResult(trace, table, deleted, dirs, status) == Run(env, old(dirs), old(table), series)
    {
      var folder := PrepareDayFolder(env);
      ProcessAll(env, folder, series);
      if halted {
        status := Aborted;
      } else {
        CommitSession();
      }
    }
  }

  /** `p` with the effects `pre` performed before it. */
  function Shift(pre: seq<Effect>, p: Progress): Progress
  {
    p.(trace := pre + p.trace)
  }

  /** Effects performed before the loop do not change what one pass of it does. */
  lemma AdvanceShift(env: Env, pre: seq<Effect>, p: Progress, s: SeriesInfo)
    ensures Advance(env, Shift(pre, p), s) == Shift(pre, Advance(env, p, s))
  {
  }
}

=== FILE: findings.dfy ===
/**
 * The main procedure as its text actually reads, for the two calls that
 * cannot succeed in the language it is written in:
 *
 * - the cleanup list is a list, and lists have no `add`: the first
 *   downloaded instance of a due series raises there;
 * - `urllib2.urlopen` has no `method` keyword: a due series that gets as far
 *   as the delete request raises there.
 *
 * Either exception, like the one raised for a due series whose study the
 * server cannot report, ends the run before the commit, which only a run with
 * no due series reaches. The rest of the project
 * models the evidently intended program (append to the list, send an HTTP
 * DELETE); the lemmas here compare the two.
 */
module Findings {
  import opened ORMapping
  import opened Paths
  import opened Pipeline
  import opened SeriesProperties
  import opened RunProperties

  /** The loop as written: the effects so far and whether an exception ended the run. */
  datatype AsWritten = AsWritten(trace: seq<Effect>, crashed: bool)

  function AsWrittenAdvance(env: Env, a: AsWritten, s: SeriesInfo): AsWritten
  {
    if a.crashed || !IsDue(env, s) then a
    else if !StudyKnown(env, s) then a.(crashed := true)
    else if |s.instances| > 0 then
      // the first instance is downloaded and added to the tarball, then `.add` raises
      AsWritten(a.trace + [FetchInstance(s.instances[0]), AddTarEntry(ArcName(InstanceFileName(s.instances[0])))],
                true)
    else
      // an empty series is moved and its row added to the session, then `urlopen` raises
      AsWritten(a.trace + [MoveTar(TarName(s.id), ArchiveLocation(env, s.id)), AddRecord(RecordFor(env, s))],
                true)
  }

  function AsWrittenProcess(env: Env, series: seq<SeriesInfo>): AsWritten
    decreases |series|
  {
    if series == [] then AsWritten([], false)
    else AsWrittenAdvance(env, AsWrittenProcess(env, series[..|series| - 1]), series[|series| - 1])
  }

  /** As written, the loop sends no delete request, removes no file, and raises exactly when some series is due. */
  lemma {:induction false} AsWrittenLoop(env: Env, series: seq<SeriesInfo>)
    ensures forall i :: 0 <= i < |AsWrittenProcess(env, series).trace| ==>
      && !AsWrittenProcess(env, series).trace[i].DeleteRequest?
      && !AsWrittenProcess(env, series).trace[i].RemoveTempFile?
      && AsWrittenProcess(env, series).trace[i] != Commit
    ensures AsWrittenProcess(env, series).crashed <==>
      exists k :: 0 <= k < |series| && IsDue(env, series[k])
    decreases |series|
  {
    if series != [] {
      var n := |series| - 1;
      var front, s := series[..n], series[n];
      AsWrittenLoop(env, front);
      var a0 := AsWrittenProcess(env, front);
      var a := AsWrittenProcess(env, series);
      forall i | 0 <= i < |a.trace|
        ensures !a.trace[i].DeleteRequest? && !a.trace[i].RemoveTempFile? && a.trace[i] != Commit
      {
        if i < |a0.trace| { assert a.trace[i] == a0.trace[i]; }
      }
      if a0.crashed {
        var k :| 0 <= k < |front| && IsDue(env, front[k]);
        assert series[k] == front[k];
      } else if !a.crashed {
        forall k | 0 <= k < |series| ensures !IsDue(env, series[k]) {
          if k < n { assert series[k] == front[k]; }
        }
      }
    }
  }

  /** The whole run as written: the day folder, the loop, and the commit when the loop did not raise. */
  function AsWrittenRun(env: Env, dirs: set<string>, series: seq<SeriesInfo>): seq<Effect>
  {
    var a := AsWrittenProcess(env, series);
    FolderEffects(dirs, DayFolder(env)) + a.trace + (if a.crashed then [] else [Commit])
  }

  /**
   * As written, no run ever sends a delete request or removes a temporary
   * file, and a run reaches the commit exactly when no series is due.
   */
  lemma AsWrittenNeverDeletes(env: Env, dirs: set<string>, series: seq<SeriesInfo>)
    ensures forall i :: 0 <= i < |AsWrittenRun(env, dirs, series)| ==>
      !AsWrittenRun(env, dirs, series)[i].DeleteRequest? && !AsWrittenRun(env, dirs, series)[i].RemoveTempFile?
    ensures Commit in AsWrittenRun(env, dirs, series) <==> forall k :: 0 <= k < |series| ==> !IsDue(env, series[k])
  {
    AsWrittenLoop(env, series);
    var a := AsWrittenProcess(env, series);
    var pre := FolderEffects(dirs, DayFolder(env));
    var tail: seq<Effect> := if a.crashed then [] else [Commit];
    var r := AsWrittenRun(env, dirs, series);
    assert r == pre + a.trace + tail;
    forall i | 0 <= i < |r| ensures !r[i].DeleteRequest? && !r[i].RemoveTempFile? && (r[i] == Commit ==> !a.crashed) {
      if i < |pre| {
        assert r[i] == pre[i] == MakeDir(DayFolder(env));
      } else if i < |pre| + |a.trace| {
        assert r[i] == a.trace[i - |pre|];
      } else {
        assert r[i] == tail[i - |pre| - |a.trace|];
      }
    }
    if !a.crashed {
      assert r[|r| - 1] == Commit;
    }
  }

  const Now: int := 200 * 86400 * 1000000    // 200 days after the epoch, in microseconds
  const ScenarioEnv: Env := Env(Now, 180, "/sda3/archive/", "19700720", map["ST1" := "P1"])

  /** Series S1, last updated at the epoch (200 days before `Now`), with three instances. */
  const S1: SeriesInfo := SeriesInfo("S1", 0, "ST1", ["I1", "I2", "I3"])

  /** As intended, S1's tarball gets the three instance files, in order. */
  lemma ScenarioS1Entries()
    ensures TarEntries(ArchiveEffects(ScenarioEnv, S1)) == ["I1.dcm", "I2.dcm", "I3.dcm"]
  {
    assert StudyKnown(ScenarioEnv, S1);
    ArchiveEntries(ScenarioEnv, S1);
    var names := EntryNames(S1.instances);
    assert names[0] == ArcName("I1.dcm") == "I1.dcm";
    assert names[1] == ArcName("I2.dcm") == "I2.dcm";
    assert names[2] == ArcName("I3.dcm") == "I3.dcm";
  }

  /**
   * Series S1 against a retention window of 180 days. As written the run ends
   * at the first instance; as intended it packs three entries, adds S1's row,
   * requests S1's deletion and commits.
   */
  lemma ScenarioS1()
    ensures AsWrittenProcess(ScenarioEnv, [S1]) == AsWritten([FetchInstance("I1"), AddTarEntry("I1.dcm")], true)
    ensures Run(ScenarioEnv, {}, map[], [S1]).status == Completed
    ensures Run(ScenarioEnv, {}, map[], [S1]).table ==
      map["S1" := ArchivedSeries("S1", "ST1", "P1", "19700720", "/sda3/archive/19700720/S1.tar")]
    ensures Run(ScenarioEnv, {}, map[], [S1]).deleted == {"S1"}
    ensures TarEntries(ArchiveEffects(ScenarioEnv, S1)) == ["I1.dcm", "I2.dcm", "I3.dcm"]
  {
    assert IsDue(ScenarioEnv, S1) && StudyKnown(ScenarioEnv, S1);
    assert [S1][..0] == [];
    assert AsWrittenProcess(ScenarioEnv, [S1]) == AsWrittenAdvance(ScenarioEnv, AsWritten([], false), S1);
    assert ArcName(InstanceFileName("I1")) == "I1.dcm";
    assert Distinct(S1.instances);
    CleanupFailsIff(S1);
    assert DayFolder(ScenarioEnv) == "/sda3/archive/19700720";
    assert ArchiveLocation(ScenarioEnv, "S1") == "/sda3/archive/19700720/S1.tar";
    assert Process(ScenarioEnv, [S1]) == Advance(ScenarioEnv, Process(ScenarioEnv, []), S1);
    var p := Process(ScenarioEnv, [S1]);
    assert !p.halted;
    assert p.pending == [RecordFor(ScenarioEnv, S1)];
    assert CommitRows(map[], p.pending) == Committed(map["S1" := RecordFor(ScenarioEnv, S1)]) by {
      assert p.pending[..0] == [];
    }
    ScenarioS1Entries();
  }

  /**
   * A due series with no instances: as written it is moved and its row added
   * to the session, but the run ends before any delete request and before the
   * commit; as intended its deletion is requested.
   */
  lemma ScenarioEmptySeries()
    ensures var s2 := SeriesInfo("S2", 0, "ST1", []);
      && AsWrittenProcess(ScenarioEnv, [s2]).crashed
      && DeleteRequest("S2") !in AsWrittenProcess(ScenarioEnv, [s2]).trace
      && Run(ScenarioEnv, {}, map[], [s2]).status == Completed
      && Run(ScenarioEnv, {}, map[], [s2]).deleted == {"S2"}
      && DeleteRequest("S2") in Run(ScenarioEnv, {}, map[], [s2]).trace
  {
  }
}

=== FILE: ormapping.dfy ===
/**
 * The `archived_series` table of the archive index: one row per archived
 * series, keyed by the Orthanc series id, and the effect of committing the
 * rows a database session has collected.
 */
module ORMapping {

  /** One row of `archived_series`; every column is a string. */
  datatype ArchivedSeries = ArchivedSeries(
    orthancSeriesId: string,   // primary key
    orthancStudyId: string,
    orthancPatientId: string,
    archivingDate: string,
    archiveLocation: string)

  /** The committed table, keyed by the primary key. */
  type Table = map<string, ArchivedSeries>

  /** Every row is stored under its own series id. */
  ghost predicate KeyedBySeriesId(t: Table)
  {
    forall id :: id in t ==> t[id].orthancSeriesId == id
  }

  /** No two rows of `rows` share a series id. */
  predicate DistinctIds(rows: seq<ArchivedSeries>)
  {
    forall i, j :: 0 <= i < j < |rows| ==> rows[i].orthancSeriesId != rows[j].orthancSeriesId
  }

  /** Some row of `rows` has series id `id`. */
  predicate HasId(rows: seq<ArchivedSeries>, id: string)
  {
    exists k :: 0 <= k < |rows| && rows[k].orthancSeriesId == id
  }

  /**
   * The constructor takes its five arguments in column order, keeps each one
   * unchanged in its column, and accepts any strings at all.
   */
  lemma ConstructorStoresArguments(seriesId: string, studyId: string, patientId: string,
                                   archivingDate: string, archiveLocation: string)
    ensures var r := ArchivedSeries(seriesId, studyId, patientId, archivingDate, archiveLocation);
      && r.orthancSeriesId == seriesId && r.orthancStudyId == studyId
      && r.orthancPatientId == patientId && r.archivingDate == archivingDate
      && r.archiveLocation == archiveLocation
    ensures forall r: ArchivedSeries ::
      ArchivedSeries(r.orthancSeriesId, r.orthancStudyId, r.orthancPatientId,
                     r.archivingDate, r.archiveLocation) == r
  {
  }

  datatype CommitOutcome = Committed(table: Table) | IntegrityError

  /**
   * Committing a session that added `added` (in that order) to the table `t`.
   * Inserting a row whose primary key is already present -- in the table or
   * earlier in the same session -- violates the key, and the whole
   * transaction is rolled back, leaving `t` as it was.
   */
  function CommitRows(t: Table, added: seq<ArchivedSeries>): CommitOutcome
    decreases |added|
  {
    if added == [] then Committed(t)
    else
      var row := added[|added| - 1];
      var prev := CommitRows(t, added[..|added| - 1]);
      if prev.IntegrityError? || row.orthancSeriesId in prev.table then
        IntegrityError
      else
        Committed(prev.table[row.orthancSeriesId := row])
  }

  lemma HasIdSnoc(rows: seq<ArchivedSeries>, row: ArchivedSeries, id: string)
    ensures HasId(rows + [row], id) <==> HasId(rows, id) || row.orthancSeriesId == id
  {
    var all := rows + [row];
    if HasId(all, id) {
      var k :| 0 <= k < |all| && all[k].orthancSeriesId == id;
      if k < |rows| { assert rows[k] == all[k]; }
    }
    if HasId(rows, id) {
      var k :| 0 <= k < |rows| && rows[k].orthancSeriesId == id;
      assert all[k] == rows[k];
    }
    if row.orthancSeriesId == id { assert all[|rows|] == row; }
  }

  lemma DistinctSnoc(rows: seq<ArchivedSeries>, row: ArchivedSeries)
    ensures DistinctIds(rows + [row]) <==> DistinctIds(rows) && !HasId(rows, row.orthancSeriesId)
  {
    var all := rows + [row];
    if DistinctIds(all) {
      forall i, j | 0 <= i < j < |rows| ensures rows[i].orthancSeriesId != rows[j].orthancSeriesId {
        assert all[i] == rows[i] && all[j] == rows[j];
      }
      forall k | 0 <= k < |rows| ensures rows[k].orthancSeriesId != row.orthancSeriesId {
        assert all[k] == rows[k] && all[|rows|] == row;
      }
    }
  }

  /** The commit succeeds exactly when the added rows have distinct series ids not yet in the table. */
  lemma {:induction false} CommitSucceedsIff(t: Table, added: seq<ArchivedSeries>)
    ensures CommitRows(t, added).Committed? <==>
      DistinctIds(added) && forall k :: 0 <= k < |added| ==> added[k].orthancSeriesId !in t
    decreases |added|
  {
    if added != [] {
      var n := |added| - 1;
      var front, row := added[..n], added[n];
      assert added == front + [row];
      CommitSucceedsIff(t, front);
      CommitContents(t, front);
      DistinctSnoc(front, row);
      var prev := CommitRows(t, front);
      if prev.Committed? {
        assert row.orthancSeriesId in prev.table <==>
          row.orthancSeriesId in t || HasId(front, row.orthancSeriesId);
      }
    }
  }

  /**
   * `t'` is `t` with the rows `added` inserted: the old rows unchanged, every
   * added row under its own id, and nothing else.
   */
  ghost predicate InsertedInto(t: Table, added: seq<ArchivedSeries>, t': Table)
  {
    && (forall id :: id in t' <==> id in t || HasId(added, id))
    && (forall k :: 0 <= k < |added| ==>
          added[k].orthancSeriesId in t' && t'[added[k].orthancSeriesId] == added[k])
    && (forall id :: id in t ==> t'[id] == t[id])
  }

  /** A successful commit inserts the added rows, so the table stays keyed by series id. */
  lemma {:induction false} CommitContents(t: Table, added: seq<ArchivedSeries>)
    ensures CommitRows(t, added).Committed? ==> InsertedInto(t, added, CommitRows(t, added).table)
    ensures CommitRows(t, added).Committed? && KeyedBySeriesId(t) ==>
      KeyedBySeriesId(CommitRows(t, added).table)
    decreases |added|
  {
    var r := CommitRows(t, added);
    if added != [] && r.Committed? {
      var n := |added| - 1;
      var front, row := added[..n], added[n];
      assert added == front + [row];
      CommitContents(t, front);
      var prev := CommitRows(t, front);
      assert r.table == prev.table[row.orthancSeriesId := row];
      forall id ensures HasId(added, id) <==> HasId(front, id) || row.orthancSeriesId == id {
        HasIdSnoc(front, row, id);
      }
      forall k | 0 <= k < |added|
        ensures added[k].orthancSeriesId in r.table && r.table[added[k].orthancSeriesId] == added[k]
      {
        if k < n {
          assert added[k] == front[k];
          assert added[k].orthancSeriesId in prev.table;
        }
      }
    }
  }
}

=== FILE: paths.dfy ===
/**
 * Names and paths: the POSIX rule for joining two path components, the
 * per-series tarball name, the per-instance file name and the name `tarfile`
 * stores a file under.
 */
module Paths {
  import opened Wrappers

  predicate IsAbsolute(p: string)
  {
    |p| > 0 && p[0] == '/'
  }

  /** What goes between `a` and a relative component: nothing if `a` is empty or ends in '/'. */
  function Separator(a: string): string
  {
    if a == [] || a[|a| - 1] == '/' then "" else "/"
  }

  /** `os.path.join(a, b)` on POSIX: an absolute `b` replaces `a`. */
  function Join(a: string, b: string): string
  {
    if IsAbsolute(b) then b else a + Separator(a) + b
  }

  /** The tarball a series is packed into, in the working directory. */
  function TarName(seriesId: string): string
  {
    seriesId + ".tar"
  }

  /** The temporary file an instance is downloaded to. */
  function InstanceFileName(instanceId: string): string
  {
    instanceId + ".dcm"
  }

  /**
   * The name `tarfile` records a file under when no other name is given: the
   * path with its leading '/' characters dropped, so that no entry is absolute.
   */
  function ArcName(path: string): (r: string)
    ensures !IsAbsolute(r)
    ensures |r| <= |path|
    decreases |path|
  {
    if IsAbsolute(path) then ArcName(path[1..]) else path
  }

  /** The stored name is the path with exactly its leading '/' characters dropped. */
  lemma {:induction false} ArcNameValue(path: string)
    ensures ArcName(path) == path[|path| - |ArcName(path)|..]
    ensures forall i :: 0 <= i < |path| - |ArcName(path)| ==> path[i] == '/'
    decreases |path|
  {
    if IsAbsolute(path) {
      ArcNameValue(path[1..]);
    }
  }

  /** Reading an instance id back from a tar entry name. */
  function InstanceOfFileName(name: string): Option<string>
  {
    if |name| >= 4 && name[|name| - 4..] == ".dcm" then Some(name[..|name| - 4]) else None
  }

  /** The joined path ends with `b`, and, when `b` is relative, starts with `a`. */
  lemma JoinParts(a: string, b: string)
    ensures |b| <= |Join(a, b)| && Join(a, b)[|Join(a, b)| - |b|..] == b
    ensures !IsAbsolute(b) ==> |a| <= |Join(a, b)| && Join(a, b)[..|a|] == a
  {
    if !IsAbsolute(b) {
      var j := a + Separator(a) + b;
      assert j[|j| - |b|..] == b;
      assert j[..|a|] == a;
    }
  }

  /** Joining the same directory with two different relative names gives two different paths. */
  lemma {:induction false} JoinInjective(a: string, x: string, y: string)
    requires !IsAbsolute(x) && !IsAbsolute(y)
    requires Join(a, x) == Join(a, y)
    ensures x == y
  {
    var p := a + Separator(a);
    assert Join(a, x) == p + x && Join(a, y) == p + y;
    assert x == (p + x)[|p|..];
    assert y == (p + y)[|p|..];
  }

  lemma {:induction false} TarNameInjective(x: string, y: string)
    requires TarName(x) == TarName(y)
    ensures x == y
  {
    assert |x| == |y|;
    assert x == TarName(x)[..|x|];
    assert y == TarName(y)[..|y|];
  }

  /** Different series land in different files of the same day folder. */
  lemma DistinctArchiveLocations(folder: string, x: string, y: string)
    requires x != y && !IsAbsolute(x) && !IsAbsolute(y)
    ensures Join(folder, TarName(x)) != Join(folder, TarName(y))
  {
    assert !IsAbsolute(TarName(x)) by { assert x == [] ==> TarName(x)[0] == '.'; assert x != [] ==> TarName(x)[0] == x[0]; }
    assert !IsAbsolute(TarName(y)) by { assert y == [] ==> TarName(y)[0] == '.'; assert y != [] ==> TarName(y)[0] == y[0]; }
    if Join(folder, TarName(x)) == Join(folder, TarName(y)) {
      JoinInjective(folder, TarName(x), TarName(y));
      TarNameInjective(x, y);
    }
  }

  /**
   * The tar entry of an instance whose id does not start with '/' is its file
   * name, and gives back the instance id it was made from.
   */
  lemma FileNameRoundTrip(instanceId: string)
    ensures InstanceOfFileName(InstanceFileName(instanceId)) == Some(instanceId)
    ensures !IsAbsolute(instanceId) ==> ArcName(InstanceFileName(instanceId)) == InstanceFileName(instanceId)
  {
    var n := InstanceFileName(instanceId);
    assert n[|n| - 4..] == ".dcm";
    assert n[..|n| - 4] == instanceId;
    assert instanceId == [] ==> n[0] == '.';
    assert instanceId != [] ==> n[0] == instanceId[0];
  }

  /** Different instances are downloaded to different files. */
  lemma {:induction false} InstanceFileNameInjective(x: string, y: string)
    requires InstanceFileName(x) == InstanceFileName(y)
    ensures x == y
  {
    assert |x| == |y|;
    assert x == InstanceFileName(x)[..|x|];
    assert y == InstanceFileName(y)[..|y|];
  }
}

=== FILE: pipeline.dfy ===
/**
 * One run of the archiver, as values: the server snapshot it reads, the
 * effects it performs in order, the rows it adds to the database session and
 * the series it asks the server to delete.
 *
 * A run creates the day folder if needed, walks the server's series list in
 * order, and for every series older than the persistence timespan downloads
 * its instances into a tarball, moves the tarball into the day folder, adds an
 * `archived_series` row to the session, asks the server to delete the series
 * and removes the downloaded files. The session is committed once, after the
 * last series. A failed study lookup, or the removal of a file already
 * removed, raises and ends the run before the commit.
 */
module Pipeline {
  import opened Wrappers
  import opened ORMapping
  import opened Retention
  import opened Paths

  /** What the server reports for one series (its `LastUpdate` in seconds). */
  datatype SeriesInfo = SeriesInfo(id: string, lastUpdate: int, parentStudy: string, instances: seq<string>)

  /**
   * Everything else a run depends on: the clock reading (taken once), the
   * persistence timespan in days, the archive root, the date string of the
   * clock reading (YYYYMMDD) and the server's study -> patient relation.
   */
  datatype Env = Env(nowMicros: int, timespanDays: int, archivePath: string, dateStr: string,
                     studyPatient: map<string, string>)

  /** The externally visible steps of a run. */
  datatype Effect =
    | MakeDir(path: string)
    | FetchInstance(instanceId: string)          // download into the instance's temporary file
    | AddTarEntry(entryName: string)
    | MoveTar(source: string, target: string)
    | AddRecord(record: ArchivedSeries)           // database_session.add
    | DeleteRequest(seriesId: string)
    | RemoveTempFile(fileName: string)
    | Commit

  predicate IsDue(env: Env, s: SeriesInfo)
  {
    Eligible(env.nowMicros, s.lastUpdate, env.timespanDays)
  }

  /** The server can report the patient of the series' study. */
  predicate StudyKnown(env: Env, s: SeriesInfo)
  {
    s.parentStudy in env.studyPatient
  }

  /** `<archive root>/<YYYYMMDD>`. */
  function DayFolder(env: Env): string
  {
    Join(env.archivePath, env.dateStr)
  }

  function ArchiveLocation(env: Env, seriesId: string): string
  {
    Join(DayFolder(env), TarName(seriesId))
  }

  function RecordFor(env: Env, s: SeriesInfo): ArchivedSeries
    requires StudyKnown(env, s)
  {
    ArchivedSeries(s.id, s.parentStudy, env.studyPatient[s.parentStudy], env.dateStr,
                   ArchiveLocation(env, s.id))
  }

  /** The day folder is created only when it does not exist yet. */
  function FolderEffects(dirs: set<string>, folder: string): seq<Effect>
  {
    if folder in dirs then [] else [MakeDir(folder)]
  }

  /** Downloading each instance and adding its file to the tarball, in list order. */
  function PackEffects(instances: seq<string>): seq<Effect>
    decreases |instances|
  {
    if instances == [] then []
    else
      var id := instances[|instances| - 1];
      PackEffects(instances[..|instances| - 1]) + [FetchInstance(id), AddTarEntry(ArcName(InstanceFileName(id)))]
  }

  /** The temporary files a series leaves behind, in download order. */
  function TempFiles(instances: seq<string>): seq<string>
  {
    seq(|instances|, k requires 0 <= k < |instances| => InstanceFileName(instances[k]))
  }

  function CleanupEffects(files: seq<string>): seq<Effect>
    decreases |files|
  {
    if files == [] then []
    else CleanupEffects(files[..|files| - 1]) + [RemoveTempFile(files[|files| - 1])]
  }

  predicate Distinct(xs: seq<string>)
  {
    forall i, j :: 0 <= i < j < |xs| ==> xs[i] != xs[j]
  }

  /**
   * How many files of the cleanup list are removed: removal goes in list order
   * and raises at the first file that was removed already.
   */
  function CleanPrefix(files: seq<string>): (r: nat)
    ensures r <= |files|
    decreases |files|
  {
    if files == [] then 0
    else
      var n := |files| - 1;
      var c := CleanPrefix(files[..n]);
      if c < n || files[n] in files[..n] then c else |files|
  }

  /** The cleanup of a series raises: it lists some instance more than once. */
  predicate CleanupFails(s: SeriesInfo)
  {
    CleanPrefix(TempFiles(s.instances)) < |s.instances|
  }

  /**
   * Everything done for one due series whose study is known: packing, the
   * move, the row, the delete request, and the removals up to the first one
   * that raises.
   */
  function ArchiveEffects(env: Env, s: SeriesInfo): seq<Effect>
    requires StudyKnown(env, s)
  {
    var files := TempFiles(s.instances);
    PackEffects(s.instances)
    + [MoveTar(TarName(s.id), ArchiveLocation(env, s.id)), AddRecord(RecordFor(env, s)), DeleteRequest(s.id)]
    + CleanupEffects(files[..CleanPrefix(files)])
  }

  /**
   * The state of a run part-way through the series list: effects so far, rows
   * added to the session, series whose deletion was requested, and whether an
   * exception ended the loop (a study lookup failed, or a temporary file was
   * removed twice).
   */
  datatype Progress = Progress(trace: seq<Effect>, pending: seq<ArchivedSeries>,
                               deleted: set<string>, halted: bool)

  const Start: Progress := Progress([], [], {}, false)

  /** One pass of the loop body. */
  function Advance(env: Env, p: Progress, s: SeriesInfo): Progress
  {
    if p.halted || !IsDue(env, s) then p
    else if !StudyKnown(env, s) then p.(halted := true)
    else Progress(p.trace + ArchiveEffects(env, s), p.pending + [RecordFor(env, s)],
                  p.deleted + {s.id}, CleanupFails(s))
  }

  /** The loop over the series list, in server order. */
  function Process(env: Env, series: seq<SeriesInfo>): Progress
    decreases |series|
  {
    if series == [] then Start
    else Advance(env, Process(env, series[..|series| - 1]), series[|series| - 1])
  }

  /** `Aborted`: an exception ended the loop, so the commit was never reached. */
  datatype Status = Completed | Aborted | CommitFailed

  /** The outcome of a run: effects, the committed table, deletions asked for, folders on disk. */
  datatype RunResult = RunResult(trace: seq<Effect>, table: Table, deleted: set<string>,
                                 dirs: set<string>, status: Status)

  /**
   * A whole run against the directories `dirs` on disk and the committed
   * table `table`. The commit comes after the loop and is skipped when an
   * exception ended the loop.
   */
  function Run(env: Env, dirs: set<string>, table: Table, series: seq<SeriesInfo>): RunResult
  {
    var folder := DayFolder(env);
    var p := Process(env, series);
    var trace := FolderEffects(dirs, folder) + p.trace;
    if p.halted then RunResult(trace, table, p.deleted, dirs + {folder}, Aborted)
    else match CommitRows(table, p.pending)
      case Committed(t) => RunResult(trace + [Commit], t, p.deleted, dirs + {folder}, Completed)
      case IntegrityError => RunResult(trace + [Commit], table, p.deleted, dirs + {folder}, CommitFailed)
  }

  // ---------------------------------------------------------------------------
  // Reference definitions: what a run should amount to, series by series.

  /** The due series, in server order. */
  function DueSeries(env: Env, series: seq<SeriesInfo>): seq<SeriesInfo>
    decreases |series|
  {
    if series == [] then []
    else
      var s := series[|series| - 1];
      DueSeries(env, series[..|series| - 1]) + (if IsDue(env, s) then [s] else [])
  }

  predicate AllStudiesKnown(env: Env, ds: seq<SeriesInfo>)
  {
    forall k :: 0 <= k < |ds| ==> StudyKnown(env, ds[k])
  }

  function ArchiveAll(env: Env, ds: seq<SeriesInfo>): seq<Effect>
    requires AllStudiesKnown(env, ds)
    decreases |ds|
  {
    if ds == [] then [] else ArchiveAll(env, ds[..|ds| - 1]) + ArchiveEffects(env, ds[|ds| - 1])
  }

  function RecordsOf(env: Env, ds: seq<SeriesInfo>): seq<ArchivedSeries>
    requires AllStudiesKnown(env, ds)
  {
    seq(|ds|, k requires 0 <= k < |ds| => RecordFor(env, ds[k]))
  }

  function IdsOf(ds: seq<SeriesInfo>): set<string>
  {
    set k | 0 <= k < |ds| :: ds[k].id
  }

  /** No two series in `ds` share an id. */
  predicate DistinctSeriesIds(ds: seq<SeriesInfo>)
  {
    forall i, j :: 0 <= i < j < |ds| ==> ds[i].id != ds[j].id
  }

  /** The entry names added to a tarball, in order. */
  function TarEntries(effects: seq<Effect>): seq<string>
    decreases |effects|
  {
    if effects == [] then []
    else
      var e := effects[|effects| - 1];
      TarEntries(effects[..|effects| - 1]) + (if e.AddTarEntry? then [e.entryName] else [])
  }
}

=== FILE: retention.dfy ===
/**
 * The retention rule: a series stays on the server until the time since its
 * last update exceeds the configured persistence timespan.
 *
 * The current time carries microseconds (as the clock reading does); a
 * series' `LastUpdate` is given to the second. Durations are exact integers.
 */
module Retention {

  const SecondsPerDay: int := 86400
  const MicrosPerSecond: int := 1000000

  /** The persistence timespan of `days` days, in microseconds. */
  function WindowMicros(days: int): int
  {
    days * SecondsPerDay * MicrosPerSecond
  }

  /** A series last updated at `lastUpdate` (seconds) is due for archiving at `nowMicros`. */
  predicate Eligible(nowMicros: int, lastUpdate: int, days: int)
  {
    nowMicros - lastUpdate * MicrosPerSecond > WindowMicros(days)
  }

  /** A series exactly the timespan old is kept; one microsecond later it is archived. */
  lemma BoundaryIsKept(lastUpdate: int, days: int)
    ensures !Eligible(lastUpdate * MicrosPerSecond + WindowMicros(days), lastUpdate, days)
    ensures Eligible(lastUpdate * MicrosPerSecond + WindowMicros(days) + 1, lastUpdate, days)
  {
  }

  /** Eligibility only grows: with a later clock or an older update, a due series stays due. */
  lemma EligibleMonotone(now: int, now': int, lastUpdate: int, lastUpdate': int, days: int)
    requires Eligible(now, lastUpdate, days)
    requires now <= now' && lastUpdate' <= lastUpdate
    ensures Eligible(now', lastUpdate', days)
  {
  }
}

=== FILE: run_properties.dfy ===
/**
 * What a whole run does: which series it archives and asks to delete, what
 * it commits, and the order of the commit relative to the deletions.
 */
module RunProperties {
  import opened ORMapping
  import opened Paths
  import opened Pipeline
  import opened SeriesProperties

  /** A series the retention rule keeps is skipped without any effect. */
  lemma IneligibleIsSkipped(env: Env, p: Progress, s: SeriesInfo)
    requires !IsDue(env, s)
    ensures Advance(env, p, s) == p
  {
  }

  /** `DueSeries` keeps exactly the due series. */
  lemma {:induction false} DueSeriesMembers(env: Env, series: seq<SeriesInfo>)
    ensures forall s :: s in DueSeries(env, series) <==> s in series && IsDue(env, s)
    decreases |series|
  {
    if series != [] {
      var n := |series| - 1;
      DueSeriesMembers(env, series[..n]);
      assert series == series[..n] + [series[n]];
    }
  }

  /**
   * A due series whose archiving raises: the server cannot report its study,
   * or it lists an instance twice, so that the second removal of that file
   * raises.
   */
  predicate Aborts(env: Env, s: SeriesInfo)
  {
    IsDue(env, s) && (!StudyKnown(env, s) || !Distinct(s.instances))
  }

  /** The loop stops early exactly when some series aborts it. */
  lemma {:induction false} HaltedIff(env: Env, series: seq<SeriesInfo>)
    ensures Process(env, series).halted <==> exists k :: 0 <= k < |series| && Aborts(env, series[k])
    decreases |series|
  {
    if series != [] {
      var n := |series| - 1;
      var front := series[..n];
      HaltedIff(env, front);
      CleanupFailsIff(series[n]);
      if Process(env, front).halted {
        var k :| 0 <= k < |front| && Aborts(env, front[k]);
        assert series[k] == front[k];
      } else if !Process(env, series).halted {
        forall k | 0 <= k < |series| ensures !Aborts(env, series[k]) {
          if k < n { assert series[k] == front[k]; }
        }
      }
    }
  }

  /**
   * A due series that lists an instance twice makes the run raise at the
   * second removal of that file, if not earlier: nothing is committed and the
   * table is left as it was.
   */
  lemma RepeatedInstanceAborts(env: Env, dirs: set<string>, table: Table, series: seq<SeriesInfo>, k: nat)
    requires k < |series| && IsDue(env, series[k]) && !Distinct(series[k].instances)
    ensures Run(env, dirs, table, series).status == Aborted
    ensures Run(env, dirs, table, series).table == table
    ensures Commit !in Run(env, dirs, table, series).trace
  {
    HaltedIff(env, series);
    CommitComesLast(env, dirs, table, series);
  }

  /** Once the loop has stopped early, the rest of the list changes nothing. */
  lemma {:induction false} HaltIsFinal(env: Env, series: seq<SeriesInfo>, i: nat)
    requires i <= |series| && Process(env, series[..i]).halted
    ensures Process(env, series) == Process(env, series[..i])
    decreases |series| - i
  {
    if i < |series| {
      assert series[..i + 1][..i] == series[..i];
      HaltIsFinal(env, series, i + 1);
    } else {
      assert series[..i] == series;
    }
  }

  /**
   * A run that did not stop early archives the due series and only them, in
   * server order: its effects are those of each due series in turn, it adds
   * one row per due series and it asks for the deletion of exactly the due
   * series.
   */
  lemma {:induction false} ProcessMatchesReference(env: Env, series: seq<SeriesInfo>)
    ensures var p := Process(env, series); var ds := DueSeries(env, series);
      !p.halted ==>
        && AllStudiesKnown(env, ds)
        && p.trace == ArchiveAll(env, ds)
        && p.pending == RecordsOf(env, ds)
        && p.deleted == IdsOf(ds)
    decreases |series|
  {
    if series != [] {
      var n := |series| - 1;
      var front, s := series[..n], series[n];
      ProcessMatchesReference(env, front);
      var ds0 := DueSeries(env, front);
      if !Process(env, series).halted && IsDue(env, s) {
        var ds := ds0 + [s];
        assert ds[..|ds| - 1] == ds0;
        assert RecordsOf(env, ds) == RecordsOf(env, ds0) + [RecordFor(env, s)];
        assert IdsOf(ds) == IdsOf(ds0) + {s.id} by {
          forall id ensures id in IdsOf(ds) <==> id in IdsOf(ds0) + {s.id} {
            if id in IdsOf(ds) {
              var k :| 0 <= k < |ds| && ds[k].id == id;
              if k < |ds0| { assert ds0[k] == ds[k]; }
            }
            if id in IdsOf(ds0) {
              var k :| 0 <= k < |ds0| && ds0[k].id == id;
              assert ds[k] == ds0[k];
            }
            assert ds[|ds0|] == s;
          }
        }
      } else if !Process(env, series).halted {
        assert ds0 + [] == ds0;
      }
    }
  }

  /** An effect that concerns the series with id `id`. */
  predicate Touches(e: Effect, id: string)
  {
    || e == DeleteRequest(id)
    || (e.AddRecord? && e.record.orthancSeriesId == id)
    || (e.MoveTar? && e.source == TarName(id))
  }

  /** Nothing in `p` concerns the series with id `id`. */
  predicate Untouched(p: Progress, id: string)
  {
    && id !in p.deleted
    && (forall j :: 0 <= j < |p.pending| ==> p.pending[j].orthancSeriesId != id)
    && (forall i :: 0 <= i < |p.trace| ==> !Touches(p.trace[i], id))
  }

  /** Archiving one series concerns no other series id. */
  lemma SeriesTouchesOnlyItself(env: Env, s: SeriesInfo, id: string)
    requires StudyKnown(env, s) && s.id != id
    ensures forall i :: 0 <= i < |ArchiveEffects(env, s)| ==> !Touches(ArchiveEffects(env, s)[i], id)
  {
    var e := ArchiveEffects(env, s);
    var files := TempFiles(s.instances);
    PackStages(s.instances);
    CleanupShape(files[..CleanPrefix(files)]);
    var pack := PackEffects(s.instances);
    var m := |pack|;
    var mid := [MoveTar(TarName(s.id), ArchiveLocation(env, s.id)), AddRecord(RecordFor(env, s)),
                DeleteRequest(s.id)];
    var cleanup := CleanupEffects(files[..CleanPrefix(files)]);
    assert e == pack + mid + cleanup;
    forall i | 0 <= i < |e| ensures !Touches(e[i], id) {
      if i < m {
        assert e[i] == pack[i] && Stage(pack[i]) == 1;
      } else if i == m {
        if TarName(s.id) == TarName(id) { TarNameInjective(s.id, id); }
      } else if i > m + 2 {
        assert e[i] == cleanup[i - m - 3];
      }
    }
  }

  /**
   * A series id that no due series carries is never moved, recorded or
   * deleted, and never added to the session.
   */
  lemma {:induction false} OnlyDueTouched(env: Env, series: seq<SeriesInfo>, id: string)
    requires forall k :: 0 <= k < |series| && series[k].id == id ==> !IsDue(env, series[k])
    ensures Untouched(Process(env, series), id)
    decreases |series|
  {
    if series != [] {
      var n := |series| - 1;
      var front, s := series[..n], series[n];
      assert forall k :: 0 <= k < n ==> front[k] == series[k];
      OnlyDueTouched(env, front, id);
      var p0 := Process(env, front);
      if !p0.halted && IsDue(env, s) && StudyKnown(env, s) {
        assert s.id != id;
        var e := ArchiveEffects(env, s);
        SeriesTouchesOnlyItself(env, s, id);
        var p := Process(env, series);
        assert p.trace == p0.trace + e;
        forall i | 0 <= i < |p.trace| ensures !Touches(p.trace[i], id) {
          if i >= |p0.trace| { assert p.trace[i] == e[i - |p0.trace|]; }
          else { assert p.trace[i] == p0.trace[i]; }
        }
        assert p.pending == p0.pending + [RecordFor(env, s)];
        forall j | 0 <= j < |p.pending| ensures p.pending[j].orthancSeriesId != id {
          if j < |p0.pending| { assert p.pending[j] == p0.pending[j]; }
        }
      } else {
        assert Process(env, series).trace == p0.trace;
        assert Process(env, series).pending == p0.pending;
      }
    }
  }

  /**
   * When the server lists each series once, a series the retention rule keeps
   * gets no tarball move, no row and no delete request.
   */
  lemma KeptSeriesUntouched(env: Env, series: seq<SeriesInfo>, k: nat)
    requires k < |series| && !IsDue(env, series[k])
    requires DistinctSeriesIds(series)
    ensures Untouched(Process(env, series), series[k].id)
  {
    OnlyDueTouched(env, series, series[k].id);
  }

  /** Every row carries the run's date, its tarball in the day folder, and the patient of its study. */
  ghost predicate RowsOfRun(env: Env, rows: seq<ArchivedSeries>)
  {
    forall j :: 0 <= j < |rows| ==>
      && rows[j].archivingDate == env.dateStr
      && rows[j].archiveLocation == Join(DayFolder(env), TarName(rows[j].orthancSeriesId))
      && rows[j].orthancStudyId in env.studyPatient
      && rows[j].orthancPatientId == env.studyPatient[rows[j].orthancStudyId]
  }

  /**
   * The clock is read once per run: every row of a run carries the run's
   * date string and places its tarball, named after the series, in the run's
   * day folder; study and patient come from the series and the server.
   */
  lemma {:induction false} RowsShareRunDate(env: Env, series: seq<SeriesInfo>)
    ensures RowsOfRun(env, Process(env, series).pending)
    decreases |series|
  {
    if series != [] {
      var n := |series| - 1;
      RowsShareRunDate(env, series[..n]);
      var p0 := Process(env, series[..n]);
      var p := Process(env, series);
      var s := series[n];
      if !p0.halted && IsDue(env, s) && StudyKnown(env, s) {
        assert p.pending == p0.pending + [RecordFor(env, s)];
        forall j | 0 <= j < |p0.pending| ensures p.pending[j] == p0.pending[j] {
        }
      } else {
        assert p.pending == p0.pending;
      }
    }
  }

  /** No effect is a commit or a folder creation. */
  predicate NoCommitNorFolder(trace: seq<Effect>)
  {
    forall i :: 0 <= i < |trace| ==> trace[i] != Commit && !trace[i].MakeDir?
  }

  /** The loop itself never commits and never creates a folder. */
  lemma {:induction false} LoopNeitherCommitsNorCreatesFolders(env: Env, series: seq<SeriesInfo>)
    ensures NoCommitNorFolder(Process(env, series).trace)
    decreases |series|
  {
    if series != [] {
      var n := |series| - 1;
      var s := series[n];
      LoopNeitherCommitsNorCreatesFolders(env, series[..n]);
      var p0 := Process(env, series[..n]);
      if !p0.halted && IsDue(env, s) && StudyKnown(env, s) {
        var e := ArchiveEffects(env, s);
        SeriesEffectOrder(env, s);
        var p := Process(env, series);
        assert p.trace == p0.trace + e;
        forall i | 0 <= i < |p.trace| ensures p.trace[i] != Commit && !p.trace[i].MakeDir? {
          if i >= |p0.trace| {
            assert p.trace[i] == e[i - |p0.trace|];
            assert 1 <= Stage(p.trace[i]) <= 5;
          } else {
            assert p.trace[i] == p0.trace[i];
          }
        }
      } else {
        assert Process(env, series).trace == p0.trace;
      }
    }
  }

  /**
   * The session is committed once, as the last effect of the run, so every
   * delete request is sent before any row of the run is durable. A run that
   * stopped early commits nothing and leaves the table as it was.
   */
  lemma CommitComesLast(env: Env, dirs: set<string>, table: Table, series: seq<SeriesInfo>)
    ensures Run(env, dirs, table, series).status != Aborted ==>
      && |Run(env, dirs, table, series).trace| > 0
      && Run(env, dirs, table, series).trace[|Run(env, dirs, table, series).trace| - 1] == Commit
      && forall i :: 0 <= i < |Run(env, dirs, table, series).trace| - 1 ==>
           Run(env, dirs, table, series).trace[i] != Commit
    ensures Run(env, dirs, table, series).status == Aborted ==>
      && Run(env, dirs, table, series).table == table
      && forall i :: 0 <= i < |Run(env, dirs, table, series).trace| ==>
           Run(env, dirs, table, series).trace[i] != Commit
  {
    LoopNeitherCommitsNorCreatesFolders(env, series);
    var p := Process(env, series);
    var pre := FolderEffects(dirs, DayFolder(env));
    forall i | 0 <= i < |pre + p.trace| ensures (pre + p.trace)[i] != Commit {
      if i >= |pre| {
        assert (pre + p.trace)[i] == p.trace[i - |pre|];
      } else {
        assert pre == [MakeDir(DayFolder(env))];
        assert (pre + p.trace)[i] == pre[i];
      }
    }
  }

  /**
   * The day folder exists after a run, it is created at most once and only as
   * the first effect, and a second run on the same day creates nothing.
   */
  lemma DayFolderPreparedOnce(env: Env, dirs: set<string>, table: Table, series: seq<SeriesInfo>,
                              table': Table, series': seq<SeriesInfo>)
    ensures Run(env, dirs, table, series).dirs == dirs + {DayFolder(env)}
    ensures forall i :: 0 <= i < |Run(env, dirs, table, series).trace| ==>
      (Run(env, dirs, table, series).trace[i].MakeDir? <==>
         i == 0 && DayFolder(env) !in dirs)
    ensures DayFolder(env) !in dirs ==> Run(env, dirs, table, series).trace[0] == MakeDir(DayFolder(env))
    ensures Run(env, Run(env, dirs, table, series).dirs, table', series').dirs ==
      Run(env, dirs, table, series).dirs
    ensures forall i :: 0 <= i < |Run(env, Run(env, dirs, table, series).dirs, table', series').trace| ==>
      !Run(env, Run(env, dirs, table, series).dirs, table', series').trace[i].MakeDir?
  {
    var f := DayFolder(env);
    LoopNeitherCommitsNorCreatesFolders(env, series);
    LoopNeitherCommitsNorCreatesFolders(env, series');
    var pre := FolderEffects(dirs, f);
    var p := Process(env, series);
    var r := Run(env, dirs, table, series);
    assert r.trace == pre + p.trace || r.trace == pre + p.trace + [Commit];
    forall i | 0 <= i < |r.trace| ensures r.trace[i].MakeDir? <==> i == 0 && f !in dirs {
      if i < |pre| {
        assert pre == [MakeDir(f)];
        assert r.trace[i] == pre[i];
      } else if i < |pre + p.trace| {
        assert r.trace[i] == p.trace[i - |pre|];
      }
    }
    var p' := Process(env, series');
    assert FolderEffects(r.dirs, f) == [];
    var r' := Run(env, r.dirs, table', series');
    assert r'.trace == p'.trace || r'.trace == p'.trace + [Commit];
    forall i | 0 <= i < |r'.trace| ensures !r'.trace[i].MakeDir? {
      if i < |p'.trace| { assert r'.trace[i] == p'.trace[i]; }
    }
  }

  /**
   * A completed run keeps every row the table had, adds a row for every due
   * series -- its id, study, patient, the run's date and the tarball's final
   * location -- and no other; it asked for the deletion of exactly the due
   * series.
   */
  lemma CompletedRunArchivesDue(env: Env, dirs: set<string>, table: Table, series: seq<SeriesInfo>)
    requires Run(env, dirs, table, series).status == Completed
    ensures forall id :: id in table ==>
      id in Run(env, dirs, table, series).table && Run(env, dirs, table, series).table[id] == table[id]
    ensures forall k :: 0 <= k < |series| && IsDue(env, series[k]) ==>
      && StudyKnown(env, series[k])
      && series[k].id in Run(env, dirs, table, series).table
      && Run(env, dirs, table, series).table[series[k].id] == RecordFor(env, series[k])
      && series[k].id in Run(env, dirs, table, series).deleted
    ensures forall id :: id in Run(env, dirs, table, series).table ==>
      id in table || id in Run(env, dirs, table, series).deleted
    ensures forall id :: id in Run(env, dirs, table, series).deleted <==>
      exists k :: 0 <= k < |series| && IsDue(env, series[k]) && series[k].id == id
  {
    var r := Run(env, dirs, table, series);
    var p := Process(env, series);
    var ds := DueSeries(env, series);
    ProcessMatchesReference(env, series);
    DueSeriesMembers(env, series);
    CommitContents(table, p.pending);
    assert InsertedInto(table, p.pending, r.table);
    forall k | 0 <= k < |series| && IsDue(env, series[k])
      ensures && StudyKnown(env, series[k])
              && series[k].id in r.table && r.table[series[k].id] == RecordFor(env, series[k])
              && series[k].id in r.deleted
    {
      assert series[k] in ds;
      var j :| 0 <= j < |ds| && ds[j] == series[k];
      assert p.pending[j] == RecordFor(env, ds[j]);
    }
    forall id | id in r.table ensures id in table || id in r.deleted {
      if HasId(p.pending, id) {
        var j :| 0 <= j < |p.pending| && p.pending[j].orthancSeriesId == id;
        assert ds[j].id == id;
      }
    }
    forall id ensures id in r.deleted <==> exists k :: 0 <= k < |series| && IsDue(env, series[k]) && series[k].id == id {
      if id in r.deleted {
        var j :| 0 <= j < |ds| && ds[j].id == id;
        assert ds[j] in series;
      }
    }
  }

  /**
   * The commit succeeds exactly when the loop ran to the end, the due series
   * have distinct ids and none of them is in the table yet.
   */
  lemma CommitSucceedsOnlyForNewSeries(env: Env, dirs: set<string>, table: Table, series: seq<SeriesInfo>)
    ensures Run(env, dirs, table, series).status == Completed <==>
      && !Process(env, series).halted
      && DistinctSeriesIds(DueSeries(env, series))
      && (forall k :: 0 <= k < |DueSeries(env, series)| ==> DueSeries(env, series)[k].id !in table)
  {
    var p := Process(env, series);
    var ds := DueSeries(env, series);
    ProcessMatchesReference(env, series);
    if !p.halted {
      CommitSucceedsIff(table, p.pending);
      assert |p.pending| == |ds|;
      assert forall k :: 0 <= k < |ds| ==> p.pending[k].orthancSeriesId == ds[k].id;
    }
  }

  /**
   * When the primary key rejects the commit, the table keeps its old rows
   * while the delete requests for every due series have already been sent.
   */
  lemma DeletesOutliveFailedCommit(env: Env, dirs: set<string>, table: Table, series: seq<SeriesInfo>)
    requires Run(env, dirs, table, series).status == CommitFailed
    ensures Run(env, dirs, table, series).table == table
    ensures forall k :: 0 <= k < |series| && IsDue(env, series[k]) ==>
      series[k].id in Run(env, dirs, table, series).deleted
  {
    var p := Process(env, series);
    var ds := DueSeries(env, series);
    ProcessMatchesReference(env, series);
    DueSeriesMembers(env, series);
    forall k | 0 <= k < |series| && IsDue(env, series[k]) ensures series[k].id in p.deleted {
      assert series[k] in ds;
    }
  }

  /** A row already in the table is never overwritten by a run. */
  lemma ExistingRowsKept(env: Env, dirs: set<string>, table: Table, series: seq<SeriesInfo>)
    ensures forall id :: id in table ==>
      id in Run(env, dirs, table, series).table && Run(env, dirs, table, series).table[id] == table[id]
  {
    CommitContents(table, Process(env, series).pending);
  }
}

=== FILE: series_properties.dfy ===
/**
 * What one series contributes to a run: its tarball entries and the order of
 * its effects.
 */
module SeriesProperties {
  import opened Wrappers
  import opened ORMapping
  import opened Paths
  import opened Pipeline

  /** The stage of the per-series procedure an effect belongs to. */
  function Stage(e: Effect): nat
  {
    match e
    case MakeDir(_) => 0
    case FetchInstance(_) => 1
    case AddTarEntry(_) => 1
    case MoveTar(_, _) => 2
    case AddRecord(_) => 3
    case DeleteRequest(_) => 4
    case RemoveTempFile(_) => 5
    case Commit => 6
  }

  /** The tar entry names of a series' instances, in list order. */
  function EntryNames(instances: seq<string>): seq<string>
  {
    seq(|instances|, k requires 0 <= k < |instances| => ArcName(InstanceFileName(instances[k])))
  }

  /**
   * Cleanup removes the longest prefix of the list without a repeated file:
   * that prefix is repeat-free, the file after it repeats one inside it, and
   * the whole list is removed exactly when no file is listed twice.
   */
  lemma {:induction false} CleanPrefixSpec(files: seq<string>)
    ensures Distinct(files[..CleanPrefix(files)])
    ensures CleanPrefix(files) < |files| ==> files[CleanPrefix(files)] in files[..CleanPrefix(files)]
    ensures CleanPrefix(files) == |files| <==> Distinct(files)
    decreases |files|
  {
    if files != [] {
      var n := |files| - 1;
      var front := files[..n];
      CleanPrefixSpec(front);
      var c0 := CleanPrefix(front);
      assert files[..c0] == front[..c0];
      if c0 < n {
        assert files[c0] == front[c0];
        var j :| 0 <= j < c0 && front[..c0][j] == front[c0];
        assert files[j] == files[c0];
      } else if files[n] in front {
        assert front == files[..n];
        var j :| 0 <= j < n && front[j] == files[n];
        assert files[j] == files[n];
      } else {
        assert files[..|files|] == files;
        forall i, j | 0 <= i < j < |files| ensures files[i] != files[j] {
          if j < n {
            assert front[i] == files[i] && front[j] == files[j];
          } else {
            assert files[i] == front[i];
          }
        }
      }
    }
  }

  /** Once a prefix stops short, the rest of the list does not matter. */
  lemma {:induction false} CleanPrefixStable(files: seq<string>, m: nat)
    requires m <= |files| && CleanPrefix(files[..m]) < m
    ensures CleanPrefix(files) == CleanPrefix(files[..m])
    decreases |files| - m
  {
    if m < |files| {
      assert files[..m + 1][..m] == files[..m];
      CleanPrefixStable(files, m + 1);
    } else {
      assert files[..m] == files;
    }
  }

  /**
   * One more removal: with no repeat among the first `k` files, the file at
   * `k` either repeats one of them, and cleanup stops there, or extends the
   * repeat-free prefix.
   */
  lemma CleanPrefixStep(files: seq<string>, k: nat)
    requires k < |files| && CleanPrefix(files[..k]) == k
    ensures files[k] in files[..k] ==> CleanPrefix(files) == k
    ensures files[k] !in files[..k] ==> CleanPrefix(files[..k + 1]) == k + 1
  {
    assert files[..k + 1][..k] == files[..k];
    if files[k] in files[..k] {
      CleanPrefixStable(files, k + 1);
    }
  }

  /** Different instance ids give different temporary files. */
  lemma TempFilesDistinct(instances: seq<string>)
    ensures Distinct(TempFiles(instances)) <==> Distinct(instances)
  {
    var files := TempFiles(instances);
    if Distinct(files) {
      forall i, j | 0 <= i < j < |instances| ensures instances[i] != instances[j] {
        assert files[i] != files[j];
      }
    }
    if Distinct(instances) {
      forall i, j | 0 <= i < j < |files| ensures files[i] != files[j] {
        if files[i] == files[j] { InstanceFileNameInjective(instances[i], instances[j]); }
      }
    }
  }

  /** The cleanup of a series raises exactly when the series lists some instance twice. */
  lemma CleanupFailsIff(s: SeriesInfo)
    ensures CleanupFails(s) <==> !Distinct(s.instances)
  {
    CleanPrefixSpec(TempFiles(s.instances));
    TempFilesDistinct(s.instances);
  }

  lemma {:induction false} TarEntriesAppend(a: seq<Effect>, b: seq<Effect>)
    ensures TarEntries(a + b) == TarEntries(a) + TarEntries(b)
    decreases |b|
  {
    if b == [] {
      assert a + b == a;
    } else {
      var n := |b| - 1;
      assert (a + b)[..|a + b| - 1] == a + b[..n];
      assert (a + b)[|a + b| - 1] == b[n];
      TarEntriesAppend(a, b[..n]);
    }
  }

  /** Effects that add nothing to a tarball leave its entry list empty. */
  lemma {:induction false} NoEntries(effects: seq<Effect>)
    requires forall i :: 0 <= i < |effects| ==> !effects[i].AddTarEntry?
    ensures TarEntries(effects) == []
    decreases |effects|
  {
    if effects != [] {
      NoEntries(effects[..|effects| - 1]);
    }
  }

  /** Packing adds one tar entry per instance, named after it, in list order. */
  lemma {:induction false} PackEntries(xs: seq<string>)
    ensures TarEntries(PackEffects(xs)) == EntryNames(xs)
    decreases |xs|
  {
    if xs != [] {
      var n := |xs| - 1;
      var front := xs[..n];
      PackEntries(front);
      var name := ArcName(InstanceFileName(xs[n]));
      var last := [FetchInstance(xs[n]), AddTarEntry(name)];
      TarEntriesAppend(PackEffects(front), last);
      NoEntries(last[..1]);
      assert TarEntries(last) == [name];
      assert EntryNames(xs) == EntryNames(front) + [name];
    }
  }

  /** Packing performs two effects per instance, all of them downloads and tar entries. */
  lemma {:induction false} PackStages(xs: seq<string>)
    ensures |PackEffects(xs)| == 2 * |xs|
    ensures forall i :: 0 <= i < |PackEffects(xs)| ==> Stage(PackEffects(xs)[i]) == 1
    decreases |xs|
  {
    if xs != [] {
      var n := |xs| - 1;
      PackStages(xs[..n]);
      var p := PackEffects(xs);
      assert p[..|p| - 2] == PackEffects(xs[..n]);
    }
  }

  /** Packing downloads instance `k` at position `2k` and adds its file at `2k + 1`. */
  lemma {:induction false} PackPositions(xs: seq<string>)
    ensures |PackEffects(xs)| == 2 * |xs|
    ensures forall k :: 0 <= k < |xs| ==>
      && PackEffects(xs)[2 * k] == FetchInstance(xs[k])
      && PackEffects(xs)[2 * k + 1] == AddTarEntry(ArcName(InstanceFileName(xs[k])))
    decreases |xs|
  {
    if xs != [] {
      var n := |xs| - 1;
      var front := xs[..n];
      PackPositions(front);
      var p := PackEffects(xs);
      assert p == PackEffects(front) + [FetchInstance(xs[n]), AddTarEntry(ArcName(InstanceFileName(xs[n])))];
      forall k | 0 <= k < |xs|
        ensures p[2 * k] == FetchInstance(xs[k]) && p[2 * k + 1] == AddTarEntry(ArcName(InstanceFileName(xs[k])))
      {
        if k < n {
          assert front[k] == xs[k];
          assert p[2 * k] == PackEffects(front)[2 * k];
          assert p[2 * k + 1] == PackEffects(front)[2 * k + 1];
        }
      }
    }
  }

  /** Cleanup removes each listed file once, in list order. */
  lemma {:induction false} CleanupShape(files: seq<string>)
    ensures |CleanupEffects(files)| == |files|
    ensures forall k :: 0 <= k < |files| ==> CleanupEffects(files)[k] == RemoveTempFile(files[k])
    decreases |files|
  {
    if files != [] {
      var n := |files| - 1;
      CleanupShape(files[..n]);
      var c := CleanupEffects(files);
      assert c[..|c| - 1] == CleanupEffects(files[..n]);
      forall k | 0 <= k < |files| ensures c[k] == RemoveTempFile(files[k]) {
        if k < n { assert files[..n][k] == files[k]; }
      }
    }
  }

  /** The tarball of an archived series gets exactly the entries of its instances' files. */
  lemma ArchiveEntries(env: Env, s: SeriesInfo)
    requires StudyKnown(env, s)
    ensures TarEntries(ArchiveEffects(env, s)) == EntryNames(s.instances)
  {
    var pack := PackEffects(s.instances);
    var mid := [MoveTar(TarName(s.id), ArchiveLocation(env, s.id)), AddRecord(RecordFor(env, s)),
                DeleteRequest(s.id)];
    var files := TempFiles(s.instances);
    var cleanup := CleanupEffects(files[..CleanPrefix(files)]);
    var rest := mid + cleanup;
    assert ArchiveEffects(env, s) == pack + rest;
    CleanupShape(files[..CleanPrefix(files)]);
    forall i | 0 <= i < |rest| ensures !rest[i].AddTarEntry? {
      if i >= 3 { assert rest[i] == cleanup[i - 3]; }
    }
    NoEntries(rest);
    PackEntries(s.instances);
    TarEntriesAppend(pack, rest);
  }

  /**
   * The tarball of an archived series holds exactly one entry per instance of
   * the series, in the order the server lists them, each named after the
   * instance's file without leading '/'; for an id not starting with '/' the
   * entry is `<instance id>.dcm` and reading it back gives the instance id.
   */
  lemma TarHoldsEachInstanceOnce(env: Env, s: SeriesInfo)
    requires StudyKnown(env, s)
    ensures |TarEntries(ArchiveEffects(env, s))| == |s.instances|
    ensures forall k :: 0 <= k < |s.instances| ==>
      TarEntries(ArchiveEffects(env, s))[k] == ArcName(InstanceFileName(s.instances[k]))
    ensures forall k :: 0 <= k < |s.instances| && !IsAbsolute(s.instances[k]) ==>
      && TarEntries(ArchiveEffects(env, s))[k] == InstanceFileName(s.instances[k])
      && InstanceOfFileName(TarEntries(ArchiveEffects(env, s))[k]) == Some(s.instances[k])
  {
    ArchiveEntries(env, s);
    var entries := TarEntries(ArchiveEffects(env, s));
    forall k | 0 <= k < |s.instances| && !IsAbsolute(s.instances[k])
      ensures entries[k] == InstanceFileName(s.instances[k])
      ensures InstanceOfFileName(entries[k]) == Some(s.instances[k])
    {
      FileNameRoundTrip(s.instances[k]);
    }
  }

  /**
   * The effects of an archived series come in stages -- download and pack,
   * move the tarball, add the row, request the delete, remove the temporary
   * files up to the first that raises -- never going back to an earlier
   * stage; the move, the row and the delete request happen once each.
   */
  lemma SeriesEffectOrder(env: Env, s: SeriesInfo)
    requires StudyKnown(env, s)
    ensures StagesInOrder(ArchiveEffects(env, s))
    ensures |ArchiveEffects(env, s)| == 2 * |s.instances| + 3 + CleanPrefix(TempFiles(s.instances))
    ensures HandOffAt(ArchiveEffects(env, s), 2 * |s.instances|)
    ensures forall i :: 0 <= i < |ArchiveEffects(env, s)| ==> 1 <= Stage(ArchiveEffects(env, s)[i]) <= 5
  {
    var pack := PackEffects(s.instances);
    var mid := [MoveTar(TarName(s.id), ArchiveLocation(env, s.id)), AddRecord(RecordFor(env, s)),
                DeleteRequest(s.id)];
    var files := TempFiles(s.instances);
    var cleanup := CleanupEffects(files[..CleanPrefix(files)]);
    var e := pack + mid + cleanup;
    assert ArchiveEffects(env, s) == e;
    PackStages(s.instances);
    CleanupShape(files[..CleanPrefix(files)]);
    var n := |pack|;
    assert forall i :: 0 <= i < n ==> e[i] == pack[i];
    assert forall i :: n + 3 <= i < |e| ==> e[i] == cleanup[i - n - 3];
    assert forall i :: 0 <= i < |e| ==> Stage(e[i]) == StageAt(n, i);
  }

  /** Every download in `e` is followed by a delete request and then by the removal of its file. */
  ghost predicate DownloadsCleanedUp(e: seq<Effect>)
  {
    forall i, x :: 0 <= i < |e| && e[i] == FetchInstance(x) ==>
      exists d, j :: i < d < j < |e| && e[d].DeleteRequest? && e[j] == RemoveTempFile(InstanceFileName(x))
  }

  /** Packing, then three hand-off effects ending in a delete request, then the full cleanup. */
  lemma {:induction false} PackThenCleanup(xs: seq<string>, mid: seq<Effect>)
    requires |mid| == 3 && !mid[0].FetchInstance? && !mid[1].FetchInstance? && mid[2].DeleteRequest?
    ensures DownloadsCleanedUp(PackEffects(xs) + mid + CleanupEffects(TempFiles(xs)))
  {
    var pack := PackEffects(xs);
    var files := TempFiles(xs);
    var cleanup := CleanupEffects(files);
    var e := pack + mid + cleanup;
    PackPositions(xs);
    CleanupShape(files);
    var m := |xs|;
    forall t | 2 * m <= t < |e| ensures !e[t].FetchInstance? {
      if t < 2 * m + 3 { assert e[t] == mid[t - 2 * m]; } else { assert e[t] == cleanup[t - 2 * m - 3]; }
    }
    forall i, x | 0 <= i < |e| && e[i] == FetchInstance(x)
      ensures exists d, j :: i < d < j < |e| && e[d].DeleteRequest? &&
                e[j] == RemoveTempFile(InstanceFileName(x))
    {
      assert i < 2 * m;
      var k := i / 2;
      assert i == 2 * k || i == 2 * k + 1;
      assert e[i] == pack[i];
      assert x == xs[k];
      var j := 2 * m + 3 + k;
      var d := 2 * m + 2;
      assert e[j] == cleanup[k] == RemoveTempFile(files[k]);
      assert e[d] == mid[2];
      assert i < d < j < |e|;
    }
  }

  /**
   * When a series lists each instance once, every file downloaded for it is
   * removed later in the same series, after the delete request. (A series
   * listing an instance twice raises at the second removal: `CleanupFailsIff`.)
   */
  lemma EveryTempFileRemoved(env: Env, s: SeriesInfo)
    requires StudyKnown(env, s)
    ensures Distinct(s.instances) ==> DownloadsCleanedUp(ArchiveEffects(env, s))
  {
    if Distinct(s.instances) {
      FullCleanup(env, s);
      PackThenCleanup(s.instances, [MoveTar(TarName(s.id), ArchiveLocation(env, s.id)),
                                    AddRecord(RecordFor(env, s)), DeleteRequest(s.id)]);
    }
  }

  /** A series listing each instance once removes all its files. */
  lemma FullCleanup(env: Env, s: SeriesInfo)
    requires StudyKnown(env, s) && Distinct(s.instances)
    ensures ArchiveEffects(env, s) ==
      PackEffects(s.instances)
      + [MoveTar(TarName(s.id), ArchiveLocation(env, s.id)), AddRecord(RecordFor(env, s)), DeleteRequest(s.id)]
      + CleanupEffects(TempFiles(s.instances))
  {
    var files := TempFiles(s.instances);
    CleanupFailsIff(s);
    assert files[..CleanPrefix(files)] == files;
  }

  /** Along `e`, no effect belongs to an earlier stage than one before it. */
  predicate StagesInOrder(e: seq<Effect>)
  {
    forall i, j :: 0 <= i < j < |e| ==> Stage(e[i]) <= Stage(e[j])
  }

  /** The move, the row and the delete request occur once each, at `n`, `n + 1` and `n + 2`. */
  predicate HandOffAt(e: seq<Effect>, n: nat)
  {
    forall i :: 0 <= i < |e| ==>
      && (e[i].MoveTar? <==> i == n)
      && (e[i].AddRecord? <==> i == n + 1)
      && (e[i].DeleteRequest? <==> i == n + 2)
  }

  /** The stage at position `i` of a series whose packing takes `n` effects. */
  function StageAt(n: nat, i: nat): nat
  {
    if i < n then 1 else if i < n + 3 then i - n + 2 else 5
  }
}

=== FILE: wrappers.dfy ===
/** The optional value used where a lookup or a parse may find nothing. */
module Wrappers {
  datatype Option<+T> = None | Some(value: T)
}
